=== FILE: README.md ===
# AI Travel Itinerary — a Dafny model of the itinerary backend

The backend turns a destination and a date into a weather-aware day plan. It does this in
four steps:

- It validates the request: a destination of at most 100 characters and an ISO date.
- It refuses dates in the past.
- It asks a primary weather provider for the forecast. If that fails for any reason, it
  asks a secondary one.
- It asks a language model for the plan and stores the row.

Two more endpoints read the table back: one by id, and one as a newest-first list.

The model covers the deterministic logic around those external calls.

- **Weather** (`weather.dfy`):
  - normalising either provider's response into the five-key record `temperature`,
    `description`, `main`, `humidity` and `wind_speed`, with defaults of `0` and
    `'Unknown'`;
  - the error each malformed response raises;
  - the fallback combinator and its combined error message.
- **Planner** (`planner.dfy`):
  - finding the JSON text between the first `{` and the last `}` of the model's reply;
  - the fixed default plan, and the fallback plan that adds the raw reply.
- **Models** (`models.dfy`):
  - the `Itinerary` row;
  - the defaults applied by `create`;
  - `__str__`.
- **Serializers** (`serializers.dfy`):
  - the request serializer: Django REST framework's `CharField` (trimming, blank,
    `max_length`, null characters) and `DateField` (Django's `parse_date` pattern and the
    calendar range check), with their error messages;
  - the response serializer: its field list, and the fact that a row can be read back
    from its response form.
- **Views** (`views.dfy`):
  - `create_itinerary` as a pure pipeline (`Pipeline`) that either rejects with a status
    and a body or proposes a row;
  - the table as a class `ItineraryStore` whose `CreateItinerary` method inserts only what
    the pipeline accepted;
  - `GetItinerary` and `ListItineraries` only read the table.

Supporting modules:

- `results.dfy`: Option and Result.
- `decimal.dfy`: digit strings and zero padding.
- `pyjson.dfy`: decoded JSON values, plus the Python operators the services apply to them
  (`in`, `[key]`, `[0]`, `.get`, truthiness, `str`). Each operator either gives a value or
  raises the exception CPython raises, with CPython's message.
- `calendar.dfy`: calendar dates, ISO formatting and parsing.

Several inputs are parameters of the model:

- **The weather providers:** each maps the place query to the decoded body or to the
  message of a `requests.RequestException`.
- **The language model:** maps destination, ISO date and weather dict to the reply text
  or to an error message.
- **`json.loads`:** an opaque partial function.
- **The current date.**

## Model

| member | source | states |
|---|---|---|
| PyJson.LookupFindsKeys | backend/itinerary/services.py:52 | `key in d` on a dict holds exactly when a lookup of `key` finds an entry |
| PyJson.LookupAt | backend/itinerary/services.py:63-67 | a key's lookup finds the value stored under its first occurrence |
| Calendar.FormatDate | backend/itinerary/views.py:37 | `strftime('%Y-%m-%d')` is ten characters: four-digit year, dash, two-digit month, dash, two-digit day |
| Calendar.ParseDate | backend/itinerary/serializers.py:7 | a date the field accepts is a real calendar day (year 1..9999, month 1..12, day within the month) |
| Calendar.ParseFormatRoundTrip | backend/itinerary/serializers.py:7 | parsing the ISO form of a date gives that date back |
| Calendar.ParsedFields | backend/itinerary/serializers.py:7 | a ten-character text with no final newline that parses has dashes at positions 4 and 7, digit fields around them, and parses to the date those fields spell |
| Calendar.FormatParseRoundTrip | backend/itinerary/serializers.py:7 | a ten-character text with no final newline that parses is exactly the ISO form of its date |
| Calendar.BeforeIsStrictTotal | backend/itinerary/views.py:28 | date comparison is irreflexive, and of two different dates exactly one is earlier |
| Models.Materialize | backend/itinerary/models.py:4-9 | a created row takes the caller's destination and date, the store's id and creation stamp, and an empty dict for an omitted JSON document |
| Models.ToString | backend/itinerary/models.py:14-15 | `str(row)` is the destination, `" - "`, then exactly the ISO text `YYYY-MM-DD` of the date, which reads back from the last ten characters |
| Serializers.StripLeading | backend/itinerary/serializers.py:6 | the result is a suffix of the input, everything removed is whitespace, and it does not start with whitespace |
| Serializers.StripTrailing | backend/itinerary/serializers.py:6 | the result is a prefix of the input, everything removed is whitespace, and it does not end with whitespace |
| Serializers.StripIsTrimmedMiddle | backend/itinerary/serializers.py:6 | the trimmed destination is the middle of the input between runs of whitespace, with no whitespace at either end |
| Serializers.DestinationErrors | backend/itinerary/serializers.py:6 | the destination has no errors exactly when it is present and its trimmed text is non-empty, at most 100 characters and free of null characters |
| Serializers.DateErrors | backend/itinerary/serializers.py:7 | the date has no errors exactly when it is present and names a calendar day |
| Serializers.Validate | backend/itinerary/serializers.py:5-7 | a request is valid exactly when both fields are; the validated data are the trimmed destination (at most 100 characters) and the parsed date; otherwise the errors name exactly the failing fields |
| Serializers.Serialize | backend/itinerary/serializers.py:10-13 | the response form has exactly the fields id, destination, date, weather_data, itinerary_data and created_at, in that order, and its date is exactly the ISO text `YYYY-MM-DD` of the row's date |
| Serializers.SerializeAll | backend/itinerary/views.py:106 | `many=True` gives one item per row, item i is row i's response form, and it reads back as row i |
| Serializers.SerializeRoundTrip | backend/itinerary/serializers.py:10-13 | every response field is taken from the stored row: the row reads back from its response form |
| Weather.ToJson | backend/itinerary/services.py:62-68 | the weather dict has exactly the keys temperature, description, main, humidity and wind_speed, in that order |
| Weather.ToJsonLookups | backend/itinerary/services.py:62-68 | each key of the weather dict holds the record's field of that name |
| Weather.ReadPoint | backend/itinerary/services.py:58-68 | the five `.get` lookups on one forecast point (the secondary adapter repeats them at lines 93-103); characterised by `ReadPointCharacterised`, `EmptyConditionListFails`, `BarePointDefaults` and `ReadPointErrorKind` |
| Weather.ReadPointCharacterised | backend/itinerary/services.py:58-68 | reading a forecast point succeeds exactly when the point is well shaped, and then every missing sub-field takes its default (0 or 'Unknown') |
| Weather.EmptyConditionListFails | backend/itinerary/services.py:59 | an empty "weather" list raises IndexError "list index out of range" |
| Weather.BarePointDefaults | backend/itinerary/services.py:93-103 | a point with no "main", "weather" or "wind" part gives the all-defaults record |
| Weather.NormalizePrimary | backend/itinerary/services.py:52-70 | the primary adapter's reading of a decoded body; characterised by `PrimaryWithoutList`, `PrimaryWithEmptyList` and `PrimaryReadsFirstPoint` |
| Weather.PrimaryWithoutList | backend/itinerary/services.py:52-53 | a primary response without "list" fails with ValueError "Weather data not available for '<city>'" |
| Weather.PrimaryWithEmptyList | backend/itinerary/services.py:56-70 | a primary response with an empty "list" fails with ValueError "No weather data found for '<city>'" |
| Weather.PrimaryReadsFirstPoint | backend/itinerary/services.py:56-68 | with a non-empty "list", the result is the extraction of element 0 alone |
| Weather.ReadPointErrorKind | backend/itinerary/services.py:58-68 | reading a point raises only Python's own errors, never a bare Exception |
| Weather.FetchPrimary | backend/itinerary/services.py:32-73 | the primary request (the city with ",GB") and its reading; characterised by `PrimaryErrorKinds`, and by `GetWeather` for the fallback |
| Weather.FetchSecondary | backend/itinerary/services.py:75-106 | the secondary request (the bare city) and its reading; characterised by `SecondaryErrorKinds`, and by `GetWeather` for the fallback |
| Weather.PrimaryErrorKinds | backend/itinerary/services.py:72-73 | the primary result is a bare Exception exactly when the request failed, and its message is "RapidAPI error: " plus the request's; a successful request is normalised unwrapped |
| Weather.SecondaryErrorKinds | backend/itinerary/services.py:105-106 | the same for the secondary provider, with "OpenWeatherMap error: " |
| Weather.GetWeather | backend/itinerary/services.py:20-30 | the result succeeds exactly when one provider does; primary success is returned as is; otherwise the secondary's success; otherwise "Weather API error: <e>. Fallback also failed: <f>" |
| Weather.SecondaryNotConsulted | backend/itinerary/services.py:22-24 | once the primary succeeds, the secondary provider has no effect on the result |
| Weather.DateIgnored | backend/itinerary/services.py:32-106 | the date argument has no effect on the result |
| Planner.Find | backend/itinerary/services.py:179 | `find` gives -1 exactly when the character is absent, else its first position |
| Planner.RFind | backend/itinerary/services.py:180 | `rfind` gives -1 exactly when the character is absent, else its last position |
| Planner.LocateJson | backend/itinerary/services.py:179-182 | the brace search; characterised by `LocateFailsWithoutBraces`, `LocateRoundTrip`, `LocateFindsWrappedText` and `LocateCrossedBraces` |
| Planner.LocateFailsWithoutBraces | backend/itinerary/services.py:179-181 | no candidate exactly when the reply lacks a '{' or a '}' |
| Planner.LocateRoundTrip | backend/itinerary/services.py:179-182 | for prefix + s + suffix with no '{' in prefix, no '}' in suffix and s from '{' to '}', the candidate is exactly s |
| Planner.LocateFindsWrappedText | backend/itinerary/services.py:179-182 | a non-empty candidate runs from '{' to '}' and sits between text with no '{' before and no '}' after it |
| Planner.LocateCrossedBraces | backend/itinerary/services.py:179-182 | when the last '}' precedes the first '{', the candidate is the empty text |
| Planner.DefaultEntries | backend/itinerary/services.py:186-207 | the default plan has exactly the keys morning, afternoon, evening, weather_notes and total_estimated_cost |
| Planner.DefaultPlanContents | backend/itinerary/services.py:186-207 | the default plan's note is "Weather-aware recommendations based on " plus the description, its total is "$45-90", and it has no ai_response |
| Planner.FallbackPlanContents | backend/itinerary/services.py:213-235 | the parse-failure plan is the default plan followed by ai_response holding the whole reply |
| Planner.ExtractPlan | backend/itinerary/services.py:177-235 | the plan taken from a reply; characterised by `ExtractWithoutBraces`, `ExtractRoundTrip`, `ExtractUnparsable` and `ExtractCrossedBraces` |
| Planner.ExtractWithoutBraces | backend/itinerary/services.py:181-207 | a reply without a '{' or a '}' gives the default plan, without ai_response |
| Planner.ExtractRoundTrip | backend/itinerary/services.py:179-183 | a JSON text embedded in noise is extracted as exactly the value it parses to |
| Planner.ExtractUnparsable | backend/itinerary/services.py:211-235 | braces whose candidate does not parse (the empty one included) give the default plan plus ai_response equal to the full reply |
| Planner.ExtractCrossedBraces | backend/itinerary/services.py:179-235 | when the last '}' comes before the first '{' and `json.loads("")` fails, the reply gives the fallback plan with the whole reply |
| Planner.GenerateItinerary | backend/itinerary/services.py:115-238 | `generate_itinerary`; characterised by `SummaryOfRecord`, `GenerateOnRecord` and, in the endpoint, `GenerationFailure` and `StagesSucceed` |
| Planner.SummaryOfRecord | backend/itinerary/services.py:118 | building the weather summary from a dict returned by `get_weather` raises no KeyError, and the description it reads is the record's |
| Planner.GenerateOnRecord | backend/itinerary/services.py:115-238 | on a weather record, generation fails only when the model call fails, with "Error generating itinerary: " prefixed; otherwise the plan is extracted from the reply using the record's description |
| Views.RunStages | backend/itinerary/views.py:34-65 | the weather and generation stages on validated data: a proposed row has the given destination and date and both documents; a rejection is a 400 or 500 whose first entry is "error"; characterised further by `NeverWeatherEmpty`, `WeatherFailure`, `GenerationFailure` and `StagesSucceed` |
| Views.Pipeline | backend/itinerary/views.py:15-65 | a row is proposed only for a valid request, with its trimmed destination and parsed date, a date not before today and both documents supplied; every rejection is a 400 or 500 with an "error" entry first |
| Views.InvalidRequestRejected | backend/itinerary/views.py:17-22 | an invalid request gets 400 "Invalid input data" with the details, whatever the clock, providers and model would do |
| Views.PastDateRejected | backend/itinerary/views.py:28-32 | a valid request gets 400 "Date must be in the future" exactly when its date is strictly before today, and then the providers and model have no effect |
| Views.DateCheckPassed | backend/itinerary/views.py:28-65 | for a valid request dated today or later, the endpoint's outcome is exactly that of the weather and generation stages on the validated destination and date |
| Views.TodayAccepted | backend/itinerary/views.py:28 | a date equal to today passes the date check and the later stages decide |
| Views.NeverWeatherEmpty | backend/itinerary/views.py:38-42 | the "Unable to fetch weather data" branch is never taken |
| Views.WeatherFailure | backend/itinerary/views.py:36-47 | when both providers fail, the answer is 500 "Weather service error: " plus the combined error, and the model has no effect |
| Views.GenerationFailure | backend/itinerary/views.py:51-57 | when the model call fails, the answer is 500 "Itinerary generation error: " plus the service's "Error generating itinerary: " message |
| Views.StagesSucceed | backend/itinerary/views.py:34-65 | on success the proposed row holds the destination, the date, the weather record as returned, and the plan extracted from the reply to exactly that destination, ISO date and record |
| Views.FindById | backend/itinerary/views.py:84 | a row is found exactly when some row has the id, and the row found has it |
| Views.FindByIdUnique | backend/itinerary/views.py:84 | with distinct ids, the row found is the one holding the id |
| Views.NewestFirst | backend/itinerary/views.py:105 | the ordering has one entry per row, and position i holds the row i places from the end of the table |
| Views.NewestFirstPermutes | backend/itinerary/views.py:105 | the ordering is a permutation of the table |
| Views.NewestFirstSorted | backend/itinerary/views.py:105 | rows created in order come out in strictly decreasing created_at |
| Views.ListingFacts | backend/itinerary/views.py:105-107 | the listing of rows stored in creation order has one item per row; item i is the response form of the i-th newest row and reads back as that row; the items' created_at strictly decrease; the ordering is a permutation of the table |
| Views.ItineraryStore.constructor | backend/itinerary/models.py:4-9 | a new table is empty, satisfies the table invariant, and hands out ids from 1 |
| Views.ItineraryStore.Insert | backend/itinerary/views.py:60-65 | exactly one row is appended, built with the next id and stamp, and the invariant (valid columns, increasing ids and stamps) is kept |
| Views.ItineraryStore.CreateItinerary | backend/itinerary/views.py:10-75 | a rejection leaves the table unchanged and returns the pipeline's response; an acceptance appends exactly the accepted row and returns its response form with 201 |
| Views.ItineraryStore.GetItinerary | backend/itinerary/views.py:78-96 | 200 exactly when a row has the id, with that row's response form, which reads back as the row; otherwise 404 "Itinerary not found"; the table is not changed |
| Views.ItineraryStore.ListItineraries | backend/itinerary/views.py:99-112 | 200 with one item per row; item i is exactly the response form of the i-th newest row and reads back as it; the items' created_at strictly decrease; the ordering is a permutation of the table; the table is not changed |

## Left out

- HTTP transport is not modelled: URLs, headers, query parameters, `raise_for_status` and `response.json()`. Each provider call is a parameter that returns a decoded body or a `RequestException` message.
- The Groq client, its settings and the prompt text are not modelled. The model's reply is an arbitrary input string. A reply whose `content` is `None` is not modelled.
- `json.loads` is an opaque partial function. Python's `RecursionError` on deeply nested input is not modelled.
- Reading API keys from Django settings and constructing the two service objects are left out. They hold no logic.
- JSON objects with a repeated key are not modelled. `json.loads` keeps the last value for such a key, while `Lookup` takes the first entry. The model treats every decoded object as having distinct keys, as a Python dict does.
- Float values (temperature, humidity, wind speed) are opaque: a float is carried as the text Python prints for it. No arithmetic is done on them.
- Non-string request fields are not modelled. That covers JSON `null` ("This field may not be null."), numbers coerced by `CharField`, booleans rejected by it, and `date` objects given to `DateField`. A missing field is modelled.
- Lone surrogate characters are not modelled, because a Dafny `char` cannot hold one. So `CharField`'s surrogate-character validator is not modelled.
- Calendar.ParseDate models only the `\d{4}-\d{1,2}-\d{1,2}$` pattern of Django's `parse_date`, with ASCII digits. The extra formats that `date.fromisoformat` accepts first in newer Python versions are not modelled, and neither are non-ASCII digits.
- Calendar.FormatDate always pads the year to four digits. Some platforms' `strftime('%Y')` do not pad years below 1000. Such a date cannot pass the past-date check against a real clock.
- `created_at` is the table's logical counter, and the response form holds it as a JSON integer. The source stores a timestamp and serializes it as ISO text.
- Ties between creation timestamps and concurrent requests are not modelled. The table is sequential, so the newest-first order is total.
- The "Unexpected error: ..." 500 responses are not modelled (`views.py` lines 70-75, 92-96 and 108-112). The paths that reach them are all outside the model:
  - database failures in `create`, `get` and `all()`;
  - a missing `WEATHER_API_KEY` setting when `WeatherService()` is built (`views.py` line 35, `services.py` line 12);
  - a missing Groq API key when `GroqService()` is built (`views.py` line 50, `services.py` line 113). This happens after the weather stage succeeded, so the answer is "Unexpected error", not "Itinerary generation error".
- A request body that is not well-formed JSON is not modelled. `request.data` raises a parse error at `views.py` line 17, which the outer handler turns into a 500 "Unexpected error", not a 400.
- A request body that is JSON but not an object is not modelled. The serializer answers 400 with a `non_field_errors` entry, which a `RawRequest` cannot express.
- `repr` escapes only ASCII control characters. Python also escapes non-printable non-ASCII characters, which can appear in the default plan's `weather_notes` when the weather description is not a string: `Str` then falls back to `repr`, and Python prints `['\x85']` where the model keeps the raw character.
- Exception message texts follow CPython 3.11 and later. Older versions word some `TypeError` messages differently.
- The Django admin, URL routing and the React frontend are not part of this model.

=== FILE: calendar.dfy ===
/** Calendar dates as the itinerary's `date` column holds them (Django's DateField):
    a year, month and day with no time part. Parsing follows Django's `parse_date`
    pattern `\d{4}-\d{1,2}-\d{1,2}$`, followed by the range checks of Python's
    `datetime.date`; formatting is `date.isoformat()` / `strftime('%Y-%m-%d')`. */
module Calendar {
  import opened Results
  import opened Decimal

  datatype Date = Date(year: int, month: int, day: int)

  predicate IsLeapYear(y: int) {
    y % 4 == 0 && (y % 100 != 0 || y % 400 == 0)
  }

  function DaysInMonth(y: int, m: int): int {
    if m == 2 then (if IsLeapYear(y) then 29 else 28)
    else if m == 4 || m == 6 || m == 9 || m == 11 then 30
    else 31
  }

  /** What `datetime.date(year, month, day)` accepts without raising ValueError. */
  predicate ValidDate(d: Date) {
    1 <= d.year <= 9999 && 1 <= d.month <= 12 && 1 <= d.day <= DaysInMonth(d.year, d.month)
  }

  /** `a < b` on dates: earlier in the calendar. */
  predicate Before(a: Date, b: Date) {
    a.year < b.year
    || (a.year == b.year && (a.month < b.month || (a.month == b.month && a.day < b.day)))
  }

  /** `date.isoformat()`: four-digit year, two-digit month and day. */
  function FormatDate(d: Date): (r: string)
    requires ValidDate(d)
    ensures |r| == 10 && r[4] == '-' && r[7] == '-'
    ensures AllDigits(r[..4]) && AllDigits(r[5..7]) && AllDigits(r[8..])
  {
    Pad(d.year, 4) + "-" + Pad(d.month, 2) + "-" + Pad(d.day, 2)
  }

  /** A month and day field pair "M-D", each one or two digits. */
  function MonthDay(rest: string): Option<(string, string)> {
    if |rest| >= 3 && rest[1] == '-' then DigitFields(rest[..1], rest[2..])
    else if |rest| >= 4 && rest[2] == '-' then DigitFields(rest[..2], rest[3..])
    else None
  }

  function DigitFields(m: string, d: string): Option<(string, string)> {
    if AllDigits(m) && AllDigits(d) && 1 <= |d| <= 2 then Some((m, d)) else None
  }

  /** `parse_date(s)` for the pattern form: None when the text does not match the pattern
      or names no calendar day. The pattern's `$` also matches before one final newline. */
  function ParseDate(s: string): (r: Option<Date>)
    ensures r.Some? ==> ValidDate(r.value)
  {
    var t := if |s| > 0 && s[|s| - 1] == '\n' then s[..|s| - 1] else s;
    if |t| < 8 || !AllDigits(t[..4]) || t[4] != '-' then None
    else
      match MonthDay(t[5..])
      case None => None
      case Some((m, d)) =>
        var date := Date(DigitsValue(t[..4]), DigitsValue(m), DigitsValue(d));
        if ValidDate(date) then Some(date) else None
  }

  /** Parsing what `isoformat` prints gives the same date back. */
  lemma ParseFormatRoundTrip(d: Date)
    requires ValidDate(d)
    ensures ParseDate(FormatDate(d)) == Some(d)
  {
    var s := FormatDate(d);
    var y, m, dd := Pad(d.year, 4), Pad(d.month, 2), Pad(d.day, 2);
    assert s[..4] == y;
    var rest := s[5..];
    assert rest == m + "-" + dd;
    assert rest[..2] == m && rest[3..] == dd;
    PadValue(d.year, 4);
    PadValue(d.month, 2);
    PadValue(d.day, 2);
  }

  /** The fields a ten-character text without a final newline is parsed from: a four-digit
      year, then a two-digit month and a two-digit day, each after a dash. */
  lemma ParsedFields(s: string)
    requires |s| == 10 && s[9] != '\n' && ParseDate(s).Some?
    ensures s[4] == '-' && s[7] == '-'
    ensures AllDigits(s[..4]) && AllDigits(s[5..7]) && AllDigits(s[8..])
    ensures ParseDate(s) == Some(Date(DigitsValue(s[..4]), DigitsValue(s[5..7]), DigitsValue(s[8..])))
  {
    var rest := s[5..];
    assert |rest| == 5;
    assert rest[1] != '-';
    assert rest[2] == '-';
    assert MonthDay(rest) == DigitFields(rest[..2], rest[3..]);
    assert rest[..2] == s[5..7] && rest[3..] == s[8..];
  }

  /** A ten-character text with dashes at positions 4 and 7 is its three fields joined by
      dashes. */
  lemma SplitIso(s: string)
    requires |s| == 10 && s[4] == '-' && s[7] == '-'
    ensures s == s[..4] + "-" + s[5..7] + "-" + s[8..]
  {
    assert s == s[..4] + s[4..5] + s[5..7] + s[7..8] + s[8..];
  }

  /** A ten-character text that parses is already in `isoformat` form: formatting the
      parsed date gives the text back. */
  lemma FormatParseRoundTrip(s: string)
    requires |s| == 10 && s[9] != '\n' && ParseDate(s).Some?
    ensures FormatDate(ParseDate(s).value) == s
  {
    var d := ParseDate(s).value;
    ParsedFields(s);
    ValuePad(s[..4]);
    ValuePad(s[5..7]);
    ValuePad(s[8..]);
    SplitIso(s);
  }

  /** No date is before itself, and of two different dates exactly one comes first. */
  lemma BeforeIsStrictTotal(a: Date, b: Date)
    ensures !Before(a, a)
    ensures a != b ==> (Before(a, b) <==> !Before(b, a))
  {
  }
}

=== FILE: decimal.dfy ===
/** Decimal digit strings: the fixed-width, zero-padded form that date formatting
    prints and the digit runs that date parsing reads back. */
module Decimal {

  predicate IsDigit(c: char) {
    '0' <= c <= '9'
  }

  predicate AllDigits(s: string) {
    forall i :: 0 <= i < |s| ==> IsDigit(s[i])
  }

  function DigitChar(d: int): (c: char)
    requires 0 <= d < 10
    ensures IsDigit(c) && c as int - '0' as int == d
  {
    (d + '0' as int) as char
  }

  function Pow10(k: nat): (p: nat)
    ensures p >= 1
  {
    if k == 0 then 1 else 10 * Pow10(k - 1)
  }

  /** The number a run of digits spells, most significant digit first. */
  function DigitsValue(s: string): (n: nat)
    requires AllDigits(s)
    ensures n < Pow10(|s|)
  {
    if s == [] then 0
    else DigitsValue(s[..|s| - 1]) * 10 + (s[|s| - 1] as int - '0' as int)
  }

  /** `n` printed with exactly `width` digits, zero-padded on the left (the low
      `width` digits of `n` when it does not fit). */
  function Pad(n: nat, width: nat): (r: string)
    ensures |r| == width && AllDigits(r)
  {
    if width == 0 then "" else Pad(n / 10, width - 1) + [DigitChar(n % 10)]
  }

  /** `n` in decimal, without leading zeros (Python's `str` of a non-negative int). */
  function NatToDecimal(n: nat): (r: string)
    ensures |r| > 0 && AllDigits(r)
    ensures DigitsValue(r) == n
    ensures |r| == 1 || r[0] != '0'
  {
    if n < 10 then [DigitChar(n)]
    else
      var r := NatToDecimal(n / 10) + [DigitChar(n % 10)];
      assert r[..|r| - 1] == NatToDecimal(n / 10);
      r
  }

  /** Reading back a padded number gives the number, whenever it fits the width. */
  lemma {:induction false} PadValue(n: nat, width: nat)
    requires n < Pow10(width)
    ensures DigitsValue(Pad(n, width)) == n
  {
    if width > 0 {
      var p := Pad(n, width);
      PadValue(n / 10, width - 1);
      assert p[..|p| - 1] == Pad(n / 10, width - 1);
    }
  }

  /** Padding a digit run's value to the run's own width gives the run back: a fixed-width
      digit string has exactly one spelling. */
  lemma {:induction false} ValuePad(s: string)
    requires AllDigits(s)
    ensures Pad(DigitsValue(s), |s|) == s
  {
    if s != [] {
      var init := s[..|s| - 1];
      ValuePad(init);
      var n := DigitsValue(s);
      var d := s[|s| - 1] as int - '0' as int;
      assert n / 10 == DigitsValue(init) && n % 10 == d;
      assert s == init + [s[|s| - 1]];
    }
  }
}

=== FILE: models.dfy ===
/** The `Itinerary` table row: a destination of at most 100 characters, a calendar date,
    the weather and plan documents as JSON, and a creation stamp that the store assigns. */
module Models {
  import opened Results
  import opened PyJson
  import opened Calendar

  /** `max_length` of the destination column. */
  const MaxDestinationLength: nat := 100

  /** A stored row. `createdAt` is the store's logical clock at insertion. */
  datatype Itinerary = Itinerary(
    id: nat,
    destination: string,
    date: Date,
    weatherData: JsonValue,
    itineraryData: JsonValue,
    createdAt: nat)
  {
    /** The column constraints every stored row satisfies. */
    predicate Valid() {
      |destination| <= MaxDestinationLength && ValidDate(date)
    }
  }

  /** The fields a caller passes to `Itinerary.objects.create`: neither the id nor the
      creation stamp is among them, and either JSON document may be omitted. */
  datatype NewItinerary = NewItinerary(
    destination: string,
    date: Date,
    weatherData: Option<JsonValue>,
    itineraryData: Option<JsonValue>)

  /** The row the store builds from `f`: the id and creation stamp come from the store,
      and an omitted JSON document takes the column default, an empty dict. */
  function Materialize(f: NewItinerary, id: nat, now: nat): (it: Itinerary)
    ensures it.id == id && it.createdAt == now
    ensures it.destination == f.destination && it.date == f.date
    ensures f.weatherData.None? ==> it.weatherData == EmptyDict
    ensures f.weatherData.Some? ==> it.weatherData == f.weatherData.value
    ensures f.itineraryData.None? ==> it.itineraryData == EmptyDict
    ensures f.itineraryData.Some? ==> it.itineraryData == f.itineraryData.value
  {
    Itinerary(id, f.destination, f.date, f.weatherData.GetOr(EmptyDict), f.itineraryData.GetOr(EmptyDict), now)
  }

  /** `str(itinerary)`: the destination, " - ", and the date in ISO form, so that the date
      can be read back from the last ten characters. */
  function ToString(it: Itinerary): (r: string)
    requires ValidDate(it.date)
    ensures |r| == |it.destination| + 13
    ensures r[..|it.destination|] == it.destination
    ensures r[|it.destination|..|it.destination| + 3] == " - "
    ensures r[|it.destination| + 3..] == FormatDate(it.date)
    ensures ParseDate(r[|r| - 10..]) == Some(it.date)
  {
    ParseFormatRoundTrip(it.date);
    var r := it.destination + " - " + FormatDate(it.date);
    assert r[|r| - 10..] == FormatDate(it.date);
    r
  }
}

=== FILE: planner.dfy ===
/** `GroqService.generate_itinerary`: the language model's reply is arbitrary text; the
    plan is the JSON found between the reply's first '{' and its last '}', or a fixed
    default plan when there is no such pair or the text between them does not parse.
    The model call and `json.loads` are parameters. */
module Planner {
  import opened Results
  import opened PyJson
  import opened Weather

  /** The language-model call: destination, ISO date and weather dict to the reply text, or
      the message of the exception the client raised. The prompt it is given is a fixed
      template over these three values. */
  type Completion = (string, string, JsonValue) -> Result<string, string>

  /** `json.loads`: the decoded value, or None where it raises JSONDecodeError. */
  type JsonParser = string -> Option<JsonValue>

  // ---------------------------------------------------------------------------
  // Locating the JSON payload

  /** `s.find(c)`: the first position of `c` in `s`, or -1. */
  function Find(s: string, c: char): (r: int)
    ensures -1 <= r < |s|
    ensures r == -1 <==> c !in s
    ensures r >= 0 ==> s[r] == c && c !in s[..r]
  {
    if s == [] then -1
    else if s[0] == c then 0
    else
      var k := Find(s[1..], c);
      assert s[1..][..if k >= 0 then k else 0] == s[1..if k >= 0 then k + 1 else 1];
      if k == -1 then -1 else k + 1
  }

  /** `s.rfind(c)`: the last position of `c` in `s`, or -1. */
  function RFind(s: string, c: char): (r: int)
    ensures -1 <= r < |s|
    ensures r == -1 <==> c !in s
    ensures r >= 0 ==> s[r] == c && c !in s[r + 1..]
  {
    if s == [] then -1
    else if s[|s| - 1] == c then |s| - 1
    else
      var k := RFind(s[..|s| - 1], c);
      assert s == s[..|s| - 1] + [s[|s| - 1]];
      k
  }

  /** `s[i:j]` for bounds within `s`: empty when `j <= i`. */
  function Slice(s: string, i: nat, j: nat): string
    requires i <= |s| && j <= |s|
  {
    if i < j then s[i..j] else ""
  }

  datatype Located = NoBraces | Candidate(text: string)

  /** The brace search of the reply: from the first '{' through the last '}'. */
  function LocateJson(content: string): Located {
    var start := Find(content, '{');
    var end := RFind(content, '}') + 1;
    if start != -1 && end != 0 then Candidate(Slice(content, start, end)) else NoBraces
  }

  /** No candidate is found exactly when one of the two braces is missing. */
  lemma LocateFailsWithoutBraces(content: string)
    ensures LocateJson(content).NoBraces? <==> '{' !in content || '}' !in content
  {
  }

  /** Round trip: text wrapped in noise that holds no '{' before it and no '}' after it is
      found again exactly. */
  lemma LocateRoundTrip(prefix: string, s: string, suffix: string)
    requires '{' !in prefix && '}' !in suffix
    requires |s| > 0 && s[0] == '{' && s[|s| - 1] == '}'
    ensures LocateJson(prefix + s + suffix) == Candidate(s)
  {
    var content := prefix + s + suffix;
    var i, j := |prefix|, |prefix| + |s|;
    assert content[..i] == prefix && content[i] == '{';
    assert content[j..] == suffix && content[j - 1] == '}';
    assert content[i..j] == s;
    assert Find(content, '{') == i;
    assert RFind(content, '}') == j - 1;
  }

  /** Conversely, a non-empty candidate starts with '{', ends with '}', and the reply is that
      candidate between noise with no '{' before and no '}' after it. */
  lemma LocateFindsWrappedText(content: string, t: string)
    requires LocateJson(content) == Candidate(t) && t != []
    ensures t[0] == '{' && t[|t| - 1] == '}'
    ensures exists i, j ::
      && 0 <= i <= j <= |content|
      && content == content[..i] + t + content[j..]
      && '{' !in content[..i] && '}' !in content[j..]
  {
    var i := Find(content, '{');
    var j := RFind(content, '}') + 1;
    assert i >= 0 && j >= 1 && i < j;
    assert t == content[i..j];
    assert t[0] == content[i] && t[|t| - 1] == content[j - 1];
    assert content == content[..i] + t + content[j..];
    assert '{' !in content[..i] && '}' !in content[j..];
  }

  /** When the last '}' comes before the first '{', the candidate is the empty text. */
  lemma LocateCrossedBraces(content: string)
    requires '{' in content && '}' in content
    requires RFind(content, '}') < Find(content, '{')
    ensures LocateJson(content) == Candidate("")
  {
  }

  // ---------------------------------------------------------------------------
  // The default plans

  const PlanKeys: seq<string> := ["morning", "afternoon", "evening", "weather_notes", "total_estimated_cost"]

  /** One period of the default plan. */
  function Period(activity: string, food: string, cost: string): JsonValue {
    JObj([
      ("activities", JArr([JStr(activity)])),
      ("food", JStr(food)),
      ("transportation", JStr("Walking or public transport")),
      ("estimated_cost", JStr(cost))])
  }

  /** The default plan's entries; the weather note names the weather description. */
  function DefaultEntries(description: JsonValue): (es: seq<(string, JsonValue)>)
    ensures Keys(es) == PlanKeys
  {
    [
      ("morning", Period("Explore local attractions", "Local breakfast recommendation", "$10-20")),
      ("afternoon", Period("Visit museums or landmarks", "Local lunch recommendation", "$15-30")),
      ("evening", Period("Dinner and entertainment", "Local dinner recommendation", "$20-40")),
      ("weather_notes", JStr("Weather-aware recommendations based on " + Str(description))),
      ("total_estimated_cost", JStr("$45-90"))
    ]
  }

  /** The plan used when the reply holds no brace pair. */
  function DefaultPlan(description: JsonValue): JsonValue {
    JObj(DefaultEntries(description))
  }

  /** The plan used when the candidate text does not parse: the default plan with the whole
      reply attached under "ai_response". */
  function FallbackPlan(description: JsonValue, content: string): JsonValue {
    JObj(DefaultEntries(description) + [("ai_response", JStr(content))])
  }

  /** The default plan's costs, its weather note, and that it carries no "ai_response". */
  lemma DefaultPlanContents(description: JsonValue)
    ensures Keys(DefaultPlan(description).entries) == PlanKeys
    ensures "ai_response" !in Keys(DefaultPlan(description).entries)
    ensures Lookup(DefaultPlan(description).entries, "weather_notes")
      == Some(JStr("Weather-aware recommendations based on " + Str(description)))
    ensures Lookup(DefaultPlan(description).entries, "total_estimated_cost") == Some(JStr("$45-90"))
  {
    var es := DefaultPlan(description).entries;
    LookupAt(es, 3);
    LookupAt(es, 4);
  }

  /** The fallback plan is the default plan plus the raw reply, as its last entry. */
  lemma FallbackPlanContents(description: JsonValue, content: string)
    ensures Keys(FallbackPlan(description, content).entries) == PlanKeys + ["ai_response"]
    ensures FallbackPlan(description, content).entries[..5] == DefaultPlan(description).entries
    ensures Lookup(FallbackPlan(description, content).entries, "ai_response") == Some(JStr(content))
  {
    var es := FallbackPlan(description, content).entries;
    LookupAt(es, 5);
  }

  // ---------------------------------------------------------------------------
  // Extraction and generation

  /** The plan taken from a reply: the parsed candidate, or a default plan. */
  function ExtractPlan(content: string, description: JsonValue, parse: JsonParser): JsonValue {
    match LocateJson(content)
    case NoBraces => DefaultPlan(description)
    case Candidate(t) =>
      match parse(t)
      case Some(v) => v
      case None => FallbackPlan(description, content)
  }

  /** A reply without a '{' or without a '}' gives the default plan, with no "ai_response". */
  lemma ExtractWithoutBraces(content: string, description: JsonValue, parse: JsonParser)
    requires '{' !in content || '}' !in content
    ensures ExtractPlan(content, description, parse) == DefaultPlan(description)
    ensures "ai_response" !in Keys(ExtractPlan(content, description, parse).entries)
  {
    LocateFailsWithoutBraces(content);
    DefaultPlanContents(description);
  }

  /** A JSON text embedded in noise is extracted as exactly the value it parses to. */
  lemma ExtractRoundTrip(prefix: string, s: string, suffix: string, description: JsonValue, parse: JsonParser)
    requires '{' !in prefix && '}' !in suffix
    requires |s| > 0 && s[0] == '{' && s[|s| - 1] == '}'
    requires parse(s).Some?
    ensures ExtractPlan(prefix + s + suffix, description, parse) == parse(s).value
  {
    LocateRoundTrip(prefix, s, suffix);
  }

  /** Braces whose candidate does not parse (the empty candidate of crossed braces
      included) give the default plan with the whole reply under "ai_response". */
  lemma ExtractUnparsable(content: string, description: JsonValue, parse: JsonParser)
    requires '{' in content && '}' in content
    requires parse(LocateJson(content).text).None?
    ensures ExtractPlan(content, description, parse) == FallbackPlan(description, content)
    ensures Lookup(ExtractPlan(content, description, parse).entries, "ai_response") == Some(JStr(content))
  {
    LocateFailsWithoutBraces(content);
    FallbackPlanContents(description, content);
  }

  /** Crossed braces give the empty candidate, which `json.loads` rejects, so the reply
      falls back to the default plan with the whole reply under "ai_response". */
  lemma ExtractCrossedBraces(content: string, description: JsonValue, parse: JsonParser)
    requires '{' in content && '}' in content
    requires RFind(content, '}') < Find(content, '{')
    requires parse("").None?
    ensures ExtractPlan(content, description, parse) == FallbackPlan(description, content)
  {
    LocateCrossedBraces(content);
    ExtractUnparsable(content, description, parse);
  }

  /** The weather summary reads these four keys, in this order, before the model is called;
      the result is the description, which the weather note repeats. */
  function SummaryDescription(weatherData: JsonValue): Py<JsonValue> {
    var _ :- Subscript(weatherData, "temperature");
    var description :- Subscript(weatherData, "description");
    var _ :- Subscript(weatherData, "humidity");
    var _ :- Subscript(weatherData, "wind_speed");
    Ok(description)
  }

  /** `generate_itinerary(destination, date, weather_data)`: every exception is rewrapped
      as "Error generating itinerary: ..."; a reply that holds no usable JSON is recovered. */
  function GenerateItinerary(destination: string, date: string, weatherData: JsonValue,
                             complete: Completion, parse: JsonParser): Py<JsonValue>
  {
    match SummaryDescription(weatherData)
    case Err(e) => Err(PyExc(PlainException, "Error generating itinerary: " + e.msg))
    case Ok(description) =>
      match complete(destination, date, weatherData)
      case Err(m) => Err(PyExc(PlainException, "Error generating itinerary: " + m))
      case Ok(content) => Ok(ExtractPlan(content, description, parse))
  }

  /** The weather summary of a normalised record always succeeds, with its description. */
  lemma SummaryOfRecord(w: WeatherRecord)
    ensures SummaryDescription(ToJson(w)) == Ok(w.description)
  {
    ToJsonLookups(w);
  }

  /** On a normalised weather record, generation fails only when the model call fails, and
      otherwise the plan is extracted from the reply with the record's description. */
  lemma GenerateOnRecord(destination: string, date: string, w: WeatherRecord,
                         complete: Completion, parse: JsonParser)
    ensures complete(destination, date, ToJson(w)).Err? ==>
      GenerateItinerary(destination, date, ToJson(w), complete, parse)
        == Err(PyExc(PlainException, "Error generating itinerary: " + complete(destination, date, ToJson(w)).error))
    ensures complete(destination, date, ToJson(w)).Ok? ==>
      GenerateItinerary(destination, date, ToJson(w), complete, parse)
        == Ok(ExtractPlan(complete(destination, date, ToJson(w)).value, w.description, parse))
  {
    SummaryOfRecord(w);
  }
}

=== FILE: pyjson.dfy ===
/** Values produced by Python's `json.loads`, and the handful of Python operators the
    weather adapters and the plan generator apply to them: `in`, `v[key]`, `v[0]`,
    `dict.get`, truthiness and `str`. Each operator either yields a value or raises the
    exception CPython raises, with the message CPython gives it. */
module PyJson {
  import opened Results
  import opened Decimal

  /** A decoded JSON value. A dict keeps its entries in insertion order, as Python's
      dicts do; a float is opaque and carried as the text Python prints for it. */
  datatype JsonValue =
    | JNull
    | JBool(b: bool)
    | JInt(i: int)
    | JFloat(repr: string)
    | JStr(s: string)
    | JArr(items: seq<JsonValue>)
    | JObj(entries: seq<(string, JsonValue)>)

  /** The Python exception classes that can reach the code modelled here. */
  datatype ExcKind =
    | RequestException
    | ValueError
    | TypeError
    | AttributeError
    | IndexError
    | KeyError
    | PlainException

  /** A raised exception; `msg` is what `str(e)` gives. */
  datatype PyExc = PyExc(kind: ExcKind, msg: string)

  /** The outcome of a Python expression that may raise. */
  type Py<T> = Result<T, PyExc>

  const EmptyDict: JsonValue := JObj([])

  /** The keys of a dict, in insertion order. */
  function Keys(entries: seq<(string, JsonValue)>): (ks: seq<string>)
    ensures |ks| == |entries|
    ensures forall i :: 0 <= i < |entries| ==> ks[i] == entries[i].0
  {
    if entries == [] then [] else [entries[0].0] + Keys(entries[1..])
  }

  /** `d[key]` on a dict whose entries are `entries`, or None when the key is absent. */
  function Lookup(entries: seq<(string, JsonValue)>, key: string): Option<JsonValue> {
    if entries == [] then None
    else if entries[0].0 == key then Some(entries[0].1)
    else Lookup(entries[1..], key)
  }

  /** The entry at position `i` is the one a lookup of its key finds, when no earlier
      entry has that key. */
  lemma {:induction false} LookupAt(entries: seq<(string, JsonValue)>, i: nat)
    requires i < |entries|
    requires forall j :: 0 <= j < i ==> entries[j].0 != entries[i].0
    ensures Lookup(entries, entries[i].0) == Some(entries[i].1)
  {
    if i > 0 {
      LookupAt(entries[1..], i - 1);
    }
  }

  /** A lookup finds something exactly when the key is one of the dict's keys. */
  lemma {:induction false} LookupFindsKeys(entries: seq<(string, JsonValue)>, key: string)
    ensures Lookup(entries, key).Some? <==> key in Keys(entries)
  {
    if entries != [] {
      LookupFindsKeys(entries[1..], key);
    }
  }

  /** `type(v).__name__` */
  function TypeName(v: JsonValue): string {
    match v
    case JNull => "NoneType"
    case JBool(_) => "bool"
    case JInt(_) => "int"
    case JFloat(_) => "float"
    case JStr(_) => "str"
    case JArr(_) => "list"
    case JObj(_) => "dict"
  }

  /** Python's truth value of `v` (`if v:`). */
  predicate Truthy(v: JsonValue) {
    match v
    case JNull => false
    case JBool(b) => b
    case JInt(i) => i != 0
    case JFloat(r) => r != "0.0" && r != "-0.0"
    case JStr(s) => s != ""
    case JArr(xs) => xs != []
    case JObj(es) => es != []
  }

  /** Whether `needle` occurs as a contiguous part of `hay`. */
  predicate IsSubstring(needle: string, hay: string)
    decreases |hay|
  {
    needle <= hay || (hay != [] && IsSubstring(needle, hay[1..]))
  }

  /** `key in v` for a string `key`. */
  function Contains(v: JsonValue, key: string): Py<bool> {
    match v
    case JObj(es) => Ok(key in Keys(es))
    case JArr(xs) => Ok(JStr(key) in xs)
    case JStr(s) => Ok(IsSubstring(key, s))
    case _ => Err(PyExc(TypeError, "argument of type '" + TypeName(v) + "' is not iterable"))
  }

  /** `v[key]` for a string `key`. */
  function Subscript(v: JsonValue, key: string): Py<JsonValue> {
    match v
    case JObj(es) =>
      (match Lookup(es, key)
       case Some(x) => Ok(x)
       case None => Err(PyExc(KeyError, Repr(JStr(key)))))
    case JArr(_) => Err(PyExc(TypeError, "list indices must be integers or slices, not str"))
    case JStr(_) => Err(PyExc(TypeError, "string indices must be integers, not 'str'"))
    case _ => Err(PyExc(TypeError, "'" + TypeName(v) + "' object is not subscriptable"))
  }

  /** `v[0]`. A dict decoded from JSON has only string keys, so `0` is never one of them. */
  function Index0(v: JsonValue): Py<JsonValue> {
    match v
    case JArr(xs) =>
      if xs == [] then Err(PyExc(IndexError, "list index out of range")) else Ok(xs[0])
    case JStr(s) =>
      if s == "" then Err(PyExc(IndexError, "string index out of range")) else Ok(JStr([s[0]]))
    case JObj(_) => Err(PyExc(KeyError, "0"))
    case _ => Err(PyExc(TypeError, "'" + TypeName(v) + "' object is not subscriptable"))
  }

  /** `v.get(key, default)`: only a dict has a `get` method. */
  function DictGet(v: JsonValue, key: string, default: JsonValue): Py<JsonValue> {
    match v
    case JObj(es) => Ok(Lookup(es, key).GetOr(default))
    case _ => Err(PyExc(AttributeError, "'" + TypeName(v) + "' object has no attribute 'get'"))
  }

  /** `str(v)`: a string is itself, anything else is its repr. */
  function Str(v: JsonValue): string {
    if v.JStr? then v.s else Repr(v)
  }

  /** `repr(v)`. */
  function Repr(v: JsonValue): string {
    match v
    case JNull => "None"
    case JBool(b) => if b then "True" else "False"
    case JInt(i) => IntToDecimal(i)
    case JFloat(r) => r
    case JStr(s) => QuoteString(s)
    case JArr(xs) =>
      "[" + Join(seq(|xs|, k requires 0 <= k < |xs| => Repr(xs[k]))) + "]"
    case JObj(es) =>
      "{" + Join(seq(|es|, k requires 0 <= k < |es| => QuoteString(es[k].0) + ": " + Repr(es[k].1))) + "}"
  }

  /** `", ".join(parts)` */
  function Join(parts: seq<string>): string {
    if parts == [] then ""
    else if |parts| == 1 then parts[0]
    else parts[0] + ", " + Join(parts[1..])
  }

  function IntToDecimal(i: int): string {
    if i < 0 then "-" + NatToDecimal(-i) else NatToDecimal(i)
  }

  /** Python's repr of a string: single quotes unless the text holds a single quote and
      no double quote; backslash, the chosen quote and ASCII control characters escaped. */
  function QuoteString(s: string): string {
    var q := if '\'' in s && '"' !in s then '"' else '\'';
    [q] + EscapeChars(s, q) + [q]
  }

  function EscapeChars(s: string, q: char): string {
    if s == [] then "" else EscapeChar(s[0], q) + EscapeChars(s[1..], q)
  }

  function EscapeChar(c: char, q: char): string {
    if c == '\\' then "\\\\"
    else if c == q then ['\\', q]
    else if c == '\t' then "\\t"
    else if c == '\n' then "\\n"
    else if c == '\r' then "\\r"
    else if c < ' ' || c as int == 127 then "\\x" + [HexDigit(c as int / 16), HexDigit(c as int % 16)]
    else [c]
  }

  function HexDigit(d: int): char
    requires 0 <= d < 16
  {
    if d < 10 then DigitChar(d) else (d - 10 + 'a' as int) as char
  }
}

=== FILE: results.dfy ===
/** Option and Result, the failure-compatible wrappers the rest of the model uses
    for Python's `None` and for raised exceptions. */
module Results {

  datatype Option<+T> = None | Some(value: T) {
    predicate IsFailure() {
      None?
    }

    function PropagateFailure<U>(): Option<U>
      requires None?
    {
      None
    }

    function Extract(): T
      requires Some?
    {
      value
    }

    function GetOr(default: T): T {
      match this
      case Some(v) => v
      case None => default
    }
  }

  datatype Result<+T, +E> = Ok(value: T) | Err(error: E) {
    predicate IsFailure() {
      Err?
    }

    function PropagateFailure<U>(): Result<U, E>
      requires Err?
    {
      Err(error)
    }

    function Extract(): T
      requires Ok?
    {
      value
    }
  }
}

=== FILE: serializers.dfy ===
/** The two serializers: the request check for a new itinerary (a `CharField` with
    `max_length=100` for the destination and a `DateField` for the date, with Django REST
    framework's default behaviour for those fields), and the response form of a stored row. */
module Serializers {
  import opened Results
  import opened PyJson
  import opened Calendar
  import opened Models

  // ---------------------------------------------------------------------------
  // Whitespace trimming (a CharField trims by default)

  /** Python's `str.isspace` for one character. */
  predicate IsSpace(c: char) {
    var n := c as int;
    (9 <= n <= 13) || (0x1C <= n <= 0x1F) || n == 0x20 || n == 0x85 || n == 0xA0
    || n == 0x1680 || (0x2000 <= n <= 0x200A) || n == 0x2028 || n == 0x2029
    || n == 0x202F || n == 0x205F || n == 0x3000
  }

  predicate AllSpace(s: string) {
    forall i :: 0 <= i < |s| ==> IsSpace(s[i])
  }

  /** `s.lstrip()`: the suffix of `s` left after its leading whitespace. */
  function StripLeading(s: string): (r: string)
    ensures |r| <= |s| && r == s[|s| - |r|..]
    ensures AllSpace(s[..|s| - |r|])
    ensures r != [] ==> !IsSpace(r[0])
  {
    if s != [] && IsSpace(s[0]) then StripLeading(s[1..]) else s
  }

  /** `s.rstrip()`: the prefix of `s` left before its trailing whitespace. */
  function StripTrailing(s: string): (r: string)
    ensures |r| <= |s| && r == s[..|r|]
    ensures AllSpace(s[|r|..])
    ensures r != [] ==> !IsSpace(r[|r| - 1])
  {
    if s != [] && IsSpace(s[|s| - 1]) then StripTrailing(s[..|s| - 1]) else s
  }

  /** `s.strip()` */
  function Strip(s: string): string {
    StripTrailing(StripLeading(s))
  }

  /** `s.strip()` is the middle of `s` between a run of leading and a run of trailing
      whitespace, and it neither starts nor ends with whitespace itself. */
  lemma StripIsTrimmedMiddle(s: string)
    ensures exists a, b :: 0 <= a <= b <= |s| && Strip(s) == s[a..b] && AllSpace(s[..a]) && AllSpace(s[b..])
    ensures Strip(s) != [] ==> !IsSpace(Strip(s)[0]) && !IsSpace(Strip(s)[|Strip(s)| - 1])
  {
    var l := StripLeading(s);
    var r := StripTrailing(l);
    var a := |s| - |l|;
    var b := a + |r|;
    assert l == s[a..];
    assert r == s[a..b];
    assert s[b..] == l[|r|..];
  }

  // ---------------------------------------------------------------------------
  // The request serializer

  /** The request body's two fields; `None` is a field that is missing. */
  datatype RawRequest = RawRequest(destination: Option<string>, date: Option<string>)

  /** `serializer.validated_data` */
  datatype ValidRequest = ValidRequest(destination: string, date: Date)

  const RequiredMessage := "This field is required."
  const BlankMessage := "This field may not be blank."
  const MaxLengthMessage := "Ensure this field has no more than 100 characters."
  const NullCharacterMessage := "Null characters are not allowed."
  const DateFormatMessage := "Date has wrong format. Use one of these formats instead: YYYY-MM-DD."

  /** A trimmed destination the CharField accepts. */
  predicate AcceptableDestination(v: string) {
    0 < |v| <= MaxDestinationLength && '\0' !in v
  }

  predicate DestinationOk(raw: Option<string>) {
    raw.Some? && AcceptableDestination(Strip(raw.value))
  }

  predicate DateOk(raw: Option<string>) {
    raw.Some? && ParseDate(raw.value).Some?
  }

  /** The CharField's error list: required, then blank (after trimming); otherwise every
      validator that fails on the trimmed text, in order (length, then null character). */
  function DestinationErrors(raw: Option<string>): (errs: seq<string>)
    ensures errs == [] <==> DestinationOk(raw)
  {
    match raw
    case None => [RequiredMessage]
    case Some(s) =>
      var v := Strip(s);
      if v == "" then [BlankMessage]
      else
        (if |v| > MaxDestinationLength then [MaxLengthMessage] else [])
        + (if '\0' in v then [NullCharacterMessage] else [])
  }

  /** The DateField's error list. */
  function DateErrors(raw: Option<string>): (errs: seq<string>)
    ensures errs == [] <==> DateOk(raw)
  {
    match raw
    case None => [RequiredMessage]
    case Some(s) => if ParseDate(s).Some? then [] else [DateFormatMessage]
  }

  function MessageList(msgs: seq<string>): JsonValue {
    JArr(seq(|msgs|, i requires 0 <= i < |msgs| => JStr(msgs[i])))
  }

  /** `serializer.errors`: one entry per failing field, in declaration order. */
  function ErrorDetails(destinationErrors: seq<string>, dateErrors: seq<string>): JsonValue {
    JObj(
      (if destinationErrors == [] then [] else [("destination", MessageList(destinationErrors))])
      + (if dateErrors == [] then [] else [("date", MessageList(dateErrors))]))
  }

  /** `is_valid()` with `validated_data`, or `errors`. A request is accepted exactly when
      both fields are present, the trimmed destination is non-empty, at most 100
      characters long and free of null characters, and the date names a calendar day. */
  function Validate(req: RawRequest): (r: Result<ValidRequest, JsonValue>)
    ensures r.Ok? <==> DestinationOk(req.destination) && DateOk(req.date)
    ensures r.Ok? ==> r.value.destination == Strip(req.destination.value)
    ensures r.Ok? ==> Some(r.value.date) == ParseDate(req.date.value)
    ensures r.Ok? ==> |r.value.destination| <= MaxDestinationLength && ValidDate(r.value.date)
    ensures r.Err? ==> r.error.JObj?
    ensures r.Err? ==> ("destination" in Keys(r.error.entries) <==> !DestinationOk(req.destination))
    ensures r.Err? ==> ("date" in Keys(r.error.entries) <==> !DateOk(req.date))
  {
    var destinationErrors := DestinationErrors(req.destination);
    var dateErrors := DateErrors(req.date);
    if destinationErrors == [] && dateErrors == [] then
      Ok(ValidRequest(Strip(req.destination.value), ParseDate(req.date.value).value))
    else
      Err(ErrorDetails(destinationErrors, dateErrors))
  }

  // ---------------------------------------------------------------------------
  // The response serializer

  /** The serialized fields, in order. */
  const ResponseFields: seq<string> :=
    ["id", "destination", "date", "weather_data", "itinerary_data", "created_at"]

  /** The response form of a stored row. */
  function Serialize(it: Itinerary): (r: JsonValue)
    requires ValidDate(it.date)
    ensures r.JObj? && |r.entries| == |ResponseFields| && Keys(r.entries) == ResponseFields
    ensures r.entries[2] == ("date", JStr(FormatDate(it.date)))
  {
    var es := [
      ("id", JInt(it.id)),
      ("destination", JStr(it.destination)),
      ("date", JStr(FormatDate(it.date))),
      ("weather_data", it.weatherData),
      ("itinerary_data", it.itineraryData),
      ("created_at", JInt(it.createdAt))];
    assert forall i :: 0 <= i < |es| ==> Keys(es)[i] == ResponseFields[i];
    JObj(es)
  }

  /** `many=True`: each row in turn, so that item `i` reads back as row `i`. */
  function SerializeAll(rows: seq<Itinerary>): (r: seq<JsonValue>)
    requires forall i :: 0 <= i < |rows| ==> ValidDate(rows[i].date)
    ensures |r| == |rows|
    ensures forall i :: 0 <= i < |rows| ==> r[i] == Serialize(rows[i])
    ensures forall i :: 0 <= i < |rows| ==> Deserialize(r[i]) == Some(rows[i])
  {
    var r := seq(|rows|, i requires 0 <= i < |rows| => Serialize(rows[i]));
    assert forall i :: 0 <= i < |rows| ==> Deserialize(r[i]) == Some(rows[i]) by {
      forall i | 0 <= i < |rows| ensures Deserialize(r[i]) == Some(rows[i]) {
        SerializeRoundTrip(rows[i]);
      }
    }
    r
  }

  function IntField(es: seq<(string, JsonValue)>, key: string): Option<nat> {
    match Lookup(es, key)
    case Some(JInt(n)) => if n >= 0 then Some(n) else None
    case _ => None
  }

  function DateField(es: seq<(string, JsonValue)>, key: string): Option<Date> {
    match Lookup(es, key)
    case Some(JStr(s)) => ParseDate(s)
    case _ => None
  }

  function StrField(es: seq<(string, JsonValue)>, key: string): Option<string> {
    match Lookup(es, key)
    case Some(JStr(s)) => Some(s)
    case _ => None
  }

  /** Reads a row back from its response form; the partner of `Serialize`. */
  function Deserialize(v: JsonValue): Option<Itinerary> {
    if !v.JObj? then None
    else
      var es := v.entries;
      var id :- IntField(es, "id");
      var destination :- StrField(es, "destination");
      var date :- DateField(es, "date");
      var weather :- Lookup(es, "weather_data");
      var plan :- Lookup(es, "itinerary_data");
      var created :- IntField(es, "created_at");
      Some(Itinerary(id, destination, date, weather, plan, created))
  }

  /** Every response field is taken from the stored row: the row can be read back from
      its response form. */
  lemma SerializeRoundTrip(it: Itinerary)
    requires ValidDate(it.date)
    ensures Deserialize(Serialize(it)) == Some(it)
  {
    var es := Serialize(it).entries;
    LookupAt(es, 0);
    LookupAt(es, 1);
    SerializedDate(it);
    LookupAt(es, 3);
    LookupAt(es, 4);
    LookupAt(es, 5);
  }

  lemma SerializedDate(it: Itinerary)
    requires ValidDate(it.date)
    ensures DateField(Serialize(it).entries, "date") == Some(it.date)
  {
    LookupAt(Serialize(it).entries, 2);
    ParseFormatRoundTrip(it.date);
  }
}

=== FILE: views.dfy ===
/** The three endpoints. `create_itinerary` runs its stages in a fixed order (validate,
    reject a past date, fetch the weather, generate the plan, insert) and maps each failure
    to its own status and message; only a request that passes every stage reaches the
    table. `get_itinerary` and `list_itineraries` only read the table. The clock's date,
    the two weather providers, the language model and `json.loads` are parameters. */
module Views {
  import opened Results
  import opened PyJson
  import opened Calendar
  import opened Models
  import opened Serializers
  import opened Weather
  import opened Planner

  const HttpOk := 200
  const HttpCreated := 201
  const HttpBadRequest := 400
  const HttpNotFound := 404
  const HttpServerError := 500

  /** A response: the status code and the body DRF renders. */
  datatype Response = Response(status: int, body: JsonValue)

  /** `{'error': message}` */
  function ErrorBody(message: string): JsonValue {
    JObj([("error", JStr(message))])
  }

  /** The stage at which a request was turned away. */
  datatype Failure = InvalidInput | PastDate | WeatherEmpty | WeatherService | Generation

  /** What `create_itinerary` decides before touching the table: a response to send back,
      or the fields of the row to create. */
  datatype Outcome = Rejected(failure: Failure, response: Response) | Accepted(fields: NewItinerary)

  /** The stages after the date check, on validated data: a proposed row carries the given
      destination and date and both documents; a rejection is a 400 or 500 error body. */
  function RunStages(destination: string, date: Date, rapid: Provider, owm: Provider,
                     complete: Completion, parse: JsonParser): (o: Outcome)
    requires ValidDate(date)
    ensures o.Accepted? ==> o.fields.destination == destination && o.fields.date == date
    ensures o.Accepted? ==> o.fields.weatherData.Some? && o.fields.itineraryData.Some?
    ensures o.Rejected? ==> o.response.status == HttpBadRequest || o.response.status == HttpServerError
    ensures o.Rejected? ==> o.response.body.JObj? && o.response.body.entries != []
    ensures o.Rejected? ==> o.response.body.entries[0].0 == "error"
  {
    var iso := FormatDate(date);
    match GetWeather(destination, iso, rapid, owm)
    case Err(e) =>
      Rejected(WeatherService, Response(HttpServerError, ErrorBody("Weather service error: " + e.msg)))
    case Ok(w) =>
      var weatherData := ToJson(w);
      if !Truthy(weatherData) then
        Rejected(WeatherEmpty, Response(HttpBadRequest, ErrorBody("Unable to fetch weather data for " + destination)))
      else
        match GenerateItinerary(destination, iso, weatherData, complete, parse)
        case Err(e) =>
          Rejected(Generation, Response(HttpServerError, ErrorBody("Itinerary generation error: " + e.msg)))
        case Ok(plan) =>
          Accepted(NewItinerary(destination, date, Some(weatherData), Some(plan)))
  }

  /** `create_itinerary` up to the insert. A row is only ever proposed for a request that
      validated, with the trimmed destination and the parsed date, a date that is not
      before `today`, and both JSON documents supplied; every rejection carries an error
      body with a 400 or 500 status. */
  function Pipeline(req: RawRequest, today: Date, rapid: Provider, owm: Provider,
                    complete: Completion, parse: JsonParser): (o: Outcome)
    ensures o.Accepted? ==> Validate(req).Ok?
    ensures o.Accepted? ==> o.fields.destination == Validate(req).value.destination
    ensures o.Accepted? ==> o.fields.date == Validate(req).value.date && !Before(o.fields.date, today)
    ensures o.Accepted? ==> o.fields.weatherData.Some? && o.fields.itineraryData.Some?
    ensures o.Accepted? ==> |o.fields.destination| <= MaxDestinationLength && ValidDate(o.fields.date)
    ensures o.Rejected? ==> o.response.status == HttpBadRequest || o.response.status == HttpServerError
    ensures o.Rejected? ==> o.response.body.JObj? && o.response.body.entries != []
    ensures o.Rejected? ==> o.response.body.entries[0].0 == "error"
  {
    match Validate(req)
    case Err(details) =>
      Rejected(InvalidInput, Response(HttpBadRequest,
        JObj([("error", JStr("Invalid input data")), ("details", details)])))
    case Ok(v) =>
      if Before(v.date, today) then
        Rejected(PastDate, Response(HttpBadRequest, ErrorBody("Date must be in the future")))
      else
        RunStages(v.destination, v.date, rapid, owm, complete, parse)
  }

  /** An invalid request is answered 400 with the validation errors, and no later stage
      (the clock, the providers, the model) has any say in the answer. */
  lemma InvalidRequestRejected(req: RawRequest, today: Date, rapid: Provider, owm: Provider,
                               complete: Completion, parse: JsonParser,
                               today': Date, rapid': Provider, owm': Provider,
                               complete': Completion, parse': JsonParser)
    requires Validate(req).Err?
    ensures Pipeline(req, today, rapid, owm, complete, parse)
      == Rejected(InvalidInput, Response(400,
           JObj([("error", JStr("Invalid input data")), ("details", Validate(req).error)])))
    ensures Pipeline(req, today, rapid, owm, complete, parse)
      == Pipeline(req, today', rapid', owm', complete', parse')
  {
  }

  /** A valid request is turned away as a past date exactly when its date is strictly
      before today; the providers and the model are then not consulted. */
  lemma PastDateRejected(req: RawRequest, today: Date, rapid: Provider, owm: Provider,
                         complete: Completion, parse: JsonParser,
                         rapid': Provider, owm': Provider, complete': Completion, parse': JsonParser)
    requires Validate(req).Ok?
    ensures Pipeline(req, today, rapid, owm, complete, parse)
        == Rejected(PastDate, Response(400, ErrorBody("Date must be in the future")))
      <==> Before(Validate(req).value.date, today)
    ensures Before(Validate(req).value.date, today) ==>
      Pipeline(req, today, rapid, owm, complete, parse) == Pipeline(req, today, rapid', owm', complete', parse')
  {
  }

  /** A valid request whose date is not before today passes the date check: the weather
      and generation stages, run on the validated destination and date, decide the outcome. */
  lemma DateCheckPassed(req: RawRequest, today: Date, rapid: Provider, owm: Provider,
                        complete: Completion, parse: JsonParser)
    requires Validate(req).Ok? && !Before(Validate(req).value.date, today)
    ensures Pipeline(req, today, rapid, owm, complete, parse)
      == RunStages(Validate(req).value.destination, Validate(req).value.date, rapid, owm, complete, parse)
  {
  }

  /** A date equal to today passes the date check: the remaining stages decide. */
  lemma TodayAccepted(req: RawRequest, today: Date, rapid: Provider, owm: Provider,
                      complete: Completion, parse: JsonParser)
    requires Validate(req).Ok? && Validate(req).value.date == today
    ensures Pipeline(req, today, rapid, owm, complete, parse)
      == RunStages(Validate(req).value.destination, today, rapid, owm, complete, parse)
  {
    BeforeIsStrictTotal(today, today);
    DateCheckPassed(req, today, rapid, owm, complete, parse);
  }

  /** `get_weather` returns a five-key dict whenever it returns, so the "empty weather"
      branch can never be taken. */
  lemma NeverWeatherEmpty(destination: string, date: Date, rapid: Provider, owm: Provider,
                          complete: Completion, parse: JsonParser)
    requires ValidDate(date)
    ensures !(RunStages(destination, date, rapid, owm, complete, parse).Rejected?
              && RunStages(destination, date, rapid, owm, complete, parse).failure == WeatherEmpty)
  {
  }

  /** When both providers fail, the answer is 500 with the combined weather error, and the
      model is not consulted. */
  lemma WeatherFailure(destination: string, date: Date, rapid: Provider, owm: Provider,
                       complete: Completion, parse: JsonParser, complete': Completion, parse': JsonParser)
    requires ValidDate(date)
    requires GetWeather(destination, FormatDate(date), rapid, owm).Err?
    ensures RunStages(destination, date, rapid, owm, complete, parse)
      == Rejected(WeatherService, Response(500, ErrorBody("Weather service error: "
           + ("Weather API error: " + FetchPrimary(destination, rapid).error.msg
              + ". Fallback also failed: " + FetchSecondary(destination, owm).error.msg))))
    ensures RunStages(destination, date, rapid, owm, complete, parse)
      == RunStages(destination, date, rapid, owm, complete', parse')
  {
  }

  /** When the weather arrives but the model call fails, the answer is 500 and the message
      carries both prefixes, the view's and the service's. */
  lemma GenerationFailure(destination: string, date: Date, rapid: Provider, owm: Provider,
                          complete: Completion, parse: JsonParser, w: WeatherRecord, m: string)
    requires ValidDate(date)
    requires GetWeather(destination, FormatDate(date), rapid, owm) == Ok(w)
    requires complete(destination, FormatDate(date), ToJson(w)) == Err(m)
    ensures RunStages(destination, date, rapid, owm, complete, parse)
      == Rejected(Generation, Response(500, ErrorBody("Itinerary generation error: " + ("Error generating itinerary: " + m))))
  {
    var iso := FormatDate(date);
    GenerateOnRecord(destination, iso, w, complete, parse);
  }

  /** When every stage succeeds, the proposed row holds the validated destination and date,
      the weather record as the weather stage returned it, and the plan extracted from the
      reply the model gave for exactly that destination, the ISO form of the date and that
      weather record. */
  lemma StagesSucceed(destination: string, date: Date, rapid: Provider, owm: Provider,
                      complete: Completion, parse: JsonParser, w: WeatherRecord, content: string)
    requires ValidDate(date)
    requires GetWeather(destination, FormatDate(date), rapid, owm) == Ok(w)
    requires complete(destination, FormatDate(date), ToJson(w)) == Ok(content)
    ensures RunStages(destination, date, rapid, owm, complete, parse)
      == Accepted(NewItinerary(destination, date, Some(ToJson(w)), Some(ExtractPlan(content, w.description, parse))))
  {
    GenerateOnRecord(destination, FormatDate(date), w, complete, parse);
  }

  // ---------------------------------------------------------------------------
  // Reading the table

  /** `Itinerary.objects.get(id=...)`: the row with that id, if any. */
  function FindById(rows: seq<Itinerary>, id: nat): (r: Option<Itinerary>)
    ensures r.Some? <==> exists i :: 0 <= i < |rows| && rows[i].id == id
    ensures r.Some? ==> r.value.id == id && r.value in rows
  {
    if rows == [] then None
    else if rows[0].id == id then Some(rows[0])
    else
      var r := FindById(rows[1..], id);
      assert forall i :: 1 <= i < |rows| ==> rows[i] == rows[1..][i - 1];
      r
  }

  /** When ids are distinct, the row found is the one at the index that holds the id. */
  lemma FindByIdUnique(rows: seq<Itinerary>, i: nat)
    requires i < |rows|
    requires forall j, k :: 0 <= j < k < |rows| ==> rows[j].id != rows[k].id
    ensures FindById(rows, rows[i].id) == Some(rows[i])
  {
  }

  /** `order_by('-created_at')` over rows stored in creation order: the last one first. */
  function NewestFirst(rows: seq<Itinerary>): (r: seq<Itinerary>)
    ensures |r| == |rows|
    ensures forall i :: 0 <= i < |rows| ==> r[i] == rows[|rows| - 1 - i]
  {
    if rows == [] then [] else [rows[|rows| - 1]] + NewestFirst(rows[..|rows| - 1])
  }

  /** The newest-first order holds the same rows, each as often. */
  lemma {:induction false} NewestFirstPermutes(rows: seq<Itinerary>)
    ensures multiset(NewestFirst(rows)) == multiset(rows)
  {
    if rows != [] {
      NewestFirstPermutes(rows[..|rows| - 1]);
      assert rows == rows[..|rows| - 1] + [rows[|rows| - 1]];
    }
  }

  /** Rows whose creation stamps increase in storage order come out strictly newest first. */
  lemma NewestFirstSorted(rows: seq<Itinerary>)
    requires forall j, k :: 0 <= j < k < |rows| ==> rows[j].createdAt < rows[k].createdAt
    ensures forall j, k :: 0 <= j < k < |rows| ==> NewestFirst(rows)[j].createdAt > NewestFirst(rows)[k].createdAt
  {
  }

  /** Rows that satisfy the column constraints have valid dates, in either order. */
  lemma NewestFirstDates(rows: seq<Itinerary>)
    requires forall i :: 0 <= i < |rows| ==> rows[i].Valid()
    ensures forall i :: 0 <= i < |rows| ==> ValidDate(rows[i].date)
    ensures forall i :: 0 <= i < |NewestFirst(rows)| ==> ValidDate(NewestFirst(rows)[i].date)
  {
    forall i | 0 <= i < |NewestFirst(rows)|
      ensures ValidDate(NewestFirst(rows)[i].date)
    {
      assert rows[|rows| - 1 - i].Valid();
    }
  }

  /** The listing's response: exactly the response forms of the rows, newest first, each
      reading back as its row, with strictly decreasing creation stamps when the rows were
      stored in creation order. */
  lemma ListingFacts(rows: seq<Itinerary>, resp: Response)
    requires forall i :: 0 <= i < |rows| ==> ValidDate(rows[i].date)
    requires forall i, j :: 0 <= i < j < |rows| ==> rows[i].createdAt < rows[j].createdAt
    requires resp == Response(HttpOk, JArr(SerializeAll(NewestFirst(rows))))
    ensures resp.status == HttpOk && resp.body.JArr?
    ensures |resp.body.items| == |rows|
    ensures forall i :: 0 <= i < |rows| ==> resp.body.items[i] == Serialize(NewestFirst(rows)[i])
    ensures forall i :: 0 <= i < |rows| ==> Deserialize(resp.body.items[i]) == Some(rows[|rows| - 1 - i])
    ensures forall j, k :: 0 <= j < k < |rows| ==>
      Deserialize(resp.body.items[j]).value.createdAt > Deserialize(resp.body.items[k]).value.createdAt
    ensures multiset(NewestFirst(rows)) == multiset(rows)
  {
    NewestFirstPermutes(rows);
  }

  // ---------------------------------------------------------------------------
  // The table and the three endpoints

  /** The `Itinerary` table: rows in insertion order, the next primary key and a logical
      clock that stamps each row as it is created. */
  class ItineraryStore {
    var rows: seq<Itinerary>
    var nextId: nat
    var clock: nat

    /** Every row meets the column constraints; ids and creation stamps were handed out
        in increasing order and are below the next ones. */
    ghost predicate Valid()
      reads this
    {
      && (forall i :: 0 <= i < |rows| ==> rows[i].Valid())
      && (forall i :: 0 <= i < |rows| ==> rows[i].id < nextId && rows[i].createdAt < clock)
      && (forall i, j :: 0 <= i < j < |rows| ==> rows[i].id < rows[j].id)
      && (forall i, j :: 0 <= i < j < |rows| ==> rows[i].createdAt < rows[j].createdAt)
    }

    /** An empty table; primary keys start at 1. */
    constructor ()
      ensures Valid()
      ensures rows == [] && nextId == 1 && clock == 0
    {
      rows := [];
      nextId := 1;
      clock := 0;
    }

    /** `Itinerary.objects.create(...)`: appends the row built from `f` with the next id and
        the current stamp, and advances both. */
    method Insert(f: NewItinerary) returns (it: Itinerary)
      requires Valid()
      requires |f.destination| <= MaxDestinationLength && ValidDate(f.date)
      modifies this
      ensures Valid()
      ensures it == Materialize(f, old(nextId), old(clock))
      ensures rows == old(rows) + [it]
      ensures nextId == old(nextId) + 1 && clock == old(clock) + 1
    {
      it := Materialize(f, nextId, clock);
      rows := rows + [it];
      nextId := nextId + 1;
      clock := clock + 1;
    }

    /** `POST itinerary/`: nothing is stored unless every stage succeeded; then exactly
        one row is appended and answered with its response form and 201. */
    method CreateItinerary(req: RawRequest, today: Date, rapid: Provider, owm: Provider,
                           complete: Completion, parse: JsonParser) returns (resp: Response)
      requires Valid()
      modifies this
      ensures Valid()
      ensures Pipeline(req, today, rapid, owm, complete, parse).Rejected? ==>
        && resp == Pipeline(req, today, rapid, owm, complete, parse).response
        && rows == old(rows) && nextId == old(nextId) && clock == old(clock)
      ensures Pipeline(req, today, rapid, owm, complete, parse).Accepted? ==>
        && rows == old(rows) + [Materialize(Pipeline(req, today, rapid, owm, complete, parse).fields, old(nextId), old(clock))]
        && nextId == old(nextId) + 1 && clock == old(clock) + 1
        && resp == Response(HttpCreated, Serialize(rows[|rows| - 1]))
    {
      var outcome := Pipeline(req, today, rapid, owm, complete, parse);
      match outcome {
        case Rejected(_, response) =>
          resp := response;
        case Accepted(f) =>
          var it := Insert(f);
          resp := Response(HttpCreated, Serialize(it));
      }
    }

    /** `GET itinerary/<id>/`: the row with that id in its response form, or 404. */
    method GetItinerary(id: nat) returns (resp: Response)
      requires Valid()
      ensures resp.status == HttpOk <==> exists i :: 0 <= i < |rows| && rows[i].id == id
      ensures forall i :: 0 <= i < |rows| && rows[i].id == id ==>
        resp == Response(HttpOk, Serialize(rows[i])) && Deserialize(resp.body) == Some(rows[i])
      ensures resp.status != HttpOk ==> resp == Response(HttpNotFound, ErrorBody("Itinerary not found"))
    {
      match FindById(rows, id) {
        case None =>
          resp := Response(HttpNotFound, ErrorBody("Itinerary not found"));
        case Some(it) =>
          resp := Response(HttpOk, Serialize(it));
          forall i | 0 <= i < |rows| && rows[i].id == id
            ensures resp == Response(HttpOk, Serialize(rows[i])) && Deserialize(resp.body) == Some(rows[i])
          {
            FindByIdUnique(rows, i);
            SerializeRoundTrip(rows[i]);
          }
      }
    }

    /** `GET itineraries/`: every row in its response form, newest first. */
    method ListItineraries() returns (resp: Response)
      requires Valid()
      ensures resp.status == HttpOk && resp.body.JArr?
      ensures |resp.body.items| == |rows|
      ensures forall i :: 0 <= i < |rows| ==> resp.body.items[i] == Serialize(NewestFirst(rows)[i])
      ensures forall i :: 0 <= i < |rows| ==> Deserialize(resp.body.items[i]) == Some(rows[|rows| - 1 - i])
      ensures forall j, k :: 0 <= j < k < |rows| ==>
        Deserialize(resp.body.items[j]).value.createdAt > Deserialize(resp.body.items[k]).value.createdAt
      ensures multiset(NewestFirst(rows)) == multiset(rows)
    {
      NewestFirstDates(rows);
      resp := Response(HttpOk, JArr(SerializeAll(NewestFirst(rows))));
      ListingFacts(rows, resp);
    }
  }
}

=== FILE: weather.dfy ===
/** `WeatherService`: ask the primary forecast provider, fall back to the secondary one on
    any exception, and turn either provider's response into the same five-key record.
    A provider call is a parameter: given the place query, it answers with the decoded
    response body or with the message of the `RequestException` that transport, the HTTP
    status check or body decoding raised. The date argument is accepted and never used. */
module Weather {
  import opened Results
  import opened PyJson

  /** The normalised record, one field per key of the returned dict. */
  datatype WeatherRecord = WeatherRecord(
    temperature: JsonValue,
    description: JsonValue,
    main: JsonValue,
    humidity: JsonValue,
    windSpeed: JsonValue)

  /** The record's keys, in the order the dict literal lists them. */
  const RecordKeys: seq<string> := ["temperature", "description", "main", "humidity", "wind_speed"]

  const DefaultNumber: JsonValue := JInt(0)
  const DefaultText: JsonValue := JStr("Unknown")

  /** A weather provider: the place query to the decoded body or a RequestException message. */
  type Provider = string -> Result<JsonValue, string>

  /** The record as the dict `get_weather` returns: exactly the five keys, in order. */
  function ToJson(w: WeatherRecord): (r: JsonValue)
    ensures r.JObj? && Keys(r.entries) == RecordKeys
    ensures Truthy(r)
  {
    JObj([
      ("temperature", w.temperature),
      ("description", w.description),
      ("main", w.main),
      ("humidity", w.humidity),
      ("wind_speed", w.windSpeed)])
  }

  /** Each key of the returned dict holds the record's field of that name. */
  lemma ToJsonLookups(w: WeatherRecord)
    ensures Lookup(ToJson(w).entries, "temperature") == Some(w.temperature)
    ensures Lookup(ToJson(w).entries, "description") == Some(w.description)
    ensures Lookup(ToJson(w).entries, "main") == Some(w.main)
    ensures Lookup(ToJson(w).entries, "humidity") == Some(w.humidity)
    ensures Lookup(ToJson(w).entries, "wind_speed") == Some(w.windSpeed)
  {
    var es := ToJson(w).entries;
    LookupAt(es, 0);
    LookupAt(es, 1);
    LookupAt(es, 2);
    LookupAt(es, 3);
    LookupAt(es, 4);
  }

  // ---------------------------------------------------------------------------
  // Field extraction shared by both adapters

  /** The five `.get` lookups applied to one forecast point: the "main", "weather" and
      "wind" parts default to an empty dict, a one-element list holding an empty dict, and
      an empty dict; each sub-field defaults to 0 or 'Unknown'. */
  function ReadPoint(point: JsonValue): Py<WeatherRecord> {
    var mainData :- DictGet(point, "main", EmptyDict);
    var weatherList :- DictGet(point, "weather", JArr([EmptyDict]));
    var weatherInfo :- Index0(weatherList);
    var windData :- DictGet(point, "wind", EmptyDict);
    var temperature :- DictGet(mainData, "temp", DefaultNumber);
    var description :- DictGet(weatherInfo, "description", DefaultText);
    var condition :- DictGet(weatherInfo, "main", DefaultText);
    var humidity :- DictGet(mainData, "humidity", DefaultNumber);
    var windSpeed :- DictGet(windData, "speed", DefaultNumber);
    Ok(WeatherRecord(temperature, description, condition, humidity, windSpeed))
  }

  /** The part of a point stored under `key`, if the point is a dict that has one. */
  function Part(point: JsonValue, key: string): Option<JsonValue> {
    if point.JObj? then Lookup(point.entries, key) else None
  }

  /** The first element of the point's "weather" list, when that part is a non-empty list. */
  function FirstCondition(point: JsonValue): Option<JsonValue> {
    match Part(point, "weather")
    case Some(JArr(xs)) => if xs == [] then None else Some(xs[0])
    case _ => None
  }

  /** The sub-field `key` of an optional part, or `default` when the part or the sub-field
      is missing. */
  function SubField(part: Option<JsonValue>, key: string, default: JsonValue): JsonValue {
    match part
    case Some(JObj(es)) => Lookup(es, key).GetOr(default)
    case _ => default
  }

  predicate DictOrAbsent(part: Option<JsonValue>) {
    part.None? || part.value.JObj?
  }

  /** The shape a point must have for extraction to succeed: a dict whose "main" and "wind"
      parts are dicts when present, and whose "weather" part, when present, is a non-empty
      list that starts with a dict. */
  predicate WellShapedPoint(point: JsonValue) {
    && point.JObj?
    && DictOrAbsent(Part(point, "main"))
    && DictOrAbsent(Part(point, "wind"))
    && (Part(point, "weather").None? || FirstCondition(point).Some?)
    && DictOrAbsent(FirstCondition(point))
  }

  /** The record a well-shaped point yields: every field is the sub-field it names, or its
      default (0 for numbers, 'Unknown' for texts) when missing. */
  function ExpectedRecord(point: JsonValue): WeatherRecord {
    var main := Part(point, "main");
    var info := if Part(point, "weather").None? then Some(EmptyDict) else FirstCondition(point);
    var wind := Part(point, "wind");
    WeatherRecord(
      SubField(main, "temp", DefaultNumber),
      SubField(info, "description", DefaultText),
      SubField(info, "main", DefaultText),
      SubField(main, "humidity", DefaultNumber),
      SubField(wind, "speed", DefaultNumber))
  }

  /** Extraction never fails because a sub-field is missing: it fails exactly when the point
      is not well shaped, and otherwise fills every missing sub-field with its default. */
  lemma ReadPointCharacterised(point: JsonValue)
    ensures ReadPoint(point).Ok? <==> WellShapedPoint(point)
    ensures ReadPoint(point).Ok? ==> ReadPoint(point).value == ExpectedRecord(point)
  {
  }

  /** An empty "weather" list raises IndexError, whatever else the point holds. */
  lemma EmptyConditionListFails(point: JsonValue)
    requires point.JObj? && Lookup(point.entries, "weather") == Some(JArr([]))
    ensures ReadPoint(point) == Err(PyExc(IndexError, "list index out of range"))
  {
  }

  /** A point with none of the parts yields the all-defaults record. */
  lemma BarePointDefaults(point: JsonValue)
    requires point.JObj?
    requires Lookup(point.entries, "main").None? && Lookup(point.entries, "weather").None?
    requires Lookup(point.entries, "wind").None?
    ensures ReadPoint(point) == Ok(WeatherRecord(JInt(0), JStr("Unknown"), JStr("Unknown"), JInt(0), JInt(0)))
  {
  }

  // ---------------------------------------------------------------------------
  // The two adapters

  /** The primary provider's body: a "list" of forecast points, of which only the first
      is read. */
  function NormalizePrimary(city: string, body: JsonValue): Py<WeatherRecord> {
    var hasList :- Contains(body, "list");
    if !hasList then Err(PyExc(ValueError, "Weather data not available for '" + city + "'"))
    else
      var series :- Subscript(body, "list");
      if Truthy(series) then
        var day :- Index0(series);
        ReadPoint(day)
      else
        Err(PyExc(ValueError, "No weather data found for '" + city + "'"))
  }

  /** The secondary provider's body is itself the forecast point. */
  function NormalizeSecondary(body: JsonValue): Py<WeatherRecord> {
    ReadPoint(body)
  }

  /** A dict without a "list" key is reported as no data for the city. */
  lemma PrimaryWithoutList(city: string, body: JsonValue)
    requires body.JObj? && Lookup(body.entries, "list").None?
    ensures NormalizePrimary(city, body) == Err(PyExc(ValueError, "Weather data not available for '" + city + "'"))
  {
    LookupFindsKeys(body.entries, "list");
  }

  /** An empty "list" is reported as no forecast found for the city. */
  lemma PrimaryWithEmptyList(city: string, body: JsonValue)
    requires body.JObj? && Lookup(body.entries, "list") == Some(JArr([]))
    ensures NormalizePrimary(city, body) == Err(PyExc(ValueError, "No weather data found for '" + city + "'"))
  {
    LookupFindsKeys(body.entries, "list");
  }

  /** With a non-empty "list", the result is the extraction of its first point: nothing
      after the first point is read. */
  lemma PrimaryReadsFirstPoint(city: string, body: JsonValue, xs: seq<JsonValue>)
    requires body.JObj? && Lookup(body.entries, "list") == Some(JArr(xs)) && xs != []
    ensures NormalizePrimary(city, body) == ReadPoint(xs[0])
  {
    LookupFindsKeys(body.entries, "list");
  }

  // ---------------------------------------------------------------------------
  // Provider calls and the fallback

  /** `_get_weather_rapidapi`: the place query is the city with ",GB" appended; only a
      RequestException is rewrapped with the provider's name. */
  function FetchPrimary(city: string, rapid: Provider): Py<WeatherRecord> {
    match rapid(city + ",GB")
    case Err(m) => Err(PyExc(PlainException, "RapidAPI error: " + m))
    case Ok(body) => NormalizePrimary(city, body)
  }

  /** `_get_weather_openweathermap`: the place query is the bare city. */
  function FetchSecondary(city: string, owm: Provider): Py<WeatherRecord> {
    match owm(city)
    case Err(m) => Err(PyExc(PlainException, "OpenWeatherMap error: " + m))
    case Ok(body) => NormalizeSecondary(body)
  }

  /** Only a failed request is reported under the provider's name; a failure while reading
      the body keeps its own class and message (ValueError, TypeError, ...), so a result
      carrying a bare `Exception` means the request itself failed. */
  lemma PrimaryErrorKinds(city: string, rapid: Provider)
    ensures rapid(city + ",GB").Err?
      <==> FetchPrimary(city, rapid).Err? && FetchPrimary(city, rapid).error.kind == PlainException
    ensures rapid(city + ",GB").Err? ==>
      FetchPrimary(city, rapid).error.msg == "RapidAPI error: " + rapid(city + ",GB").error
    ensures rapid(city + ",GB").Ok? ==> FetchPrimary(city, rapid) == NormalizePrimary(city, rapid(city + ",GB").value)
  {
  }

  /** The same for the secondary provider, queried with the bare city. */
  lemma SecondaryErrorKinds(city: string, owm: Provider)
    ensures owm(city).Err? <==> FetchSecondary(city, owm).Err? && FetchSecondary(city, owm).error.kind == PlainException
    ensures owm(city).Err? ==> FetchSecondary(city, owm).error.msg == "OpenWeatherMap error: " + owm(city).error
    ensures owm(city).Ok? ==> FetchSecondary(city, owm) == NormalizeSecondary(owm(city).value)
  {
  }

  /** Reading a point raises only Python's own errors, never a bare `Exception`. */
  lemma ReadPointErrorKind(point: JsonValue)
    ensures ReadPoint(point).Err? ==> ReadPoint(point).error.kind != PlainException
  {
  }

  /** `get_weather(city, date)`. */
  function GetWeather(city: string, date: string, rapid: Provider, owm: Provider): (r: Py<WeatherRecord>)
    ensures r.Ok? <==> FetchPrimary(city, rapid).Ok? || FetchSecondary(city, owm).Ok?
    ensures FetchPrimary(city, rapid).Ok? ==> r == FetchPrimary(city, rapid)
    ensures FetchPrimary(city, rapid).Err? && FetchSecondary(city, owm).Ok? ==> r == FetchSecondary(city, owm)
    ensures r.Err? ==> r.error == PyExc(PlainException,
      "Weather API error: " + FetchPrimary(city, rapid).error.msg
      + ". Fallback also failed: " + FetchSecondary(city, owm).error.msg)
  {
    match FetchPrimary(city, rapid)
    case Ok(w) => Ok(w)
    case Err(e) =>
      match FetchSecondary(city, owm)
      case Ok(w) => Ok(w)
      case Err(f) =>
        Err(PyExc(PlainException, "Weather API error: " + e.msg + ". Fallback also failed: " + f.msg))
  }

  /** When the primary provider succeeds, the secondary one is not consulted: any other
      secondary gives the same result. */
  lemma SecondaryNotConsulted(city: string, date: string, rapid: Provider, owm1: Provider, owm2: Provider)
    requires FetchPrimary(city, rapid).Ok?
    ensures GetWeather(city, date, rapid, owm1) == GetWeather(city, date, rapid, owm2)
  {
  }

  /** The date argument does not affect the result. */
  lemma DateIgnored(city: string, d1: string, d2: string, rapid: Provider, owm: Provider)
    ensures GetWeather(city, d1, rapid, owm) == GetWeather(city, d2, rapid, owm)
  {
  }
}
